=== FILE: README.md ===
# ggez ↔ egui adapter: input translation and painter

This project models the two self-contained pieces of the adapter that lets the egui
immediate-mode GUI run inside a ggez game:

- **Input** (`src/input.rs`). Host callbacks are accumulated in a `RawInput`. Mouse buttons,
  motion, key presses and typed characters become egui events; wheel, resize and scale changes
  overwrite fields of the `RawInput`. Modules `Input` (the handlers and the pure key, button, modifier and
  printable-character mappings) and `InputTrace` (whole sequences of callbacks and the
  invariants the accumulated event list keeps).
- **Painter** (`src/painter.rs`). At most one pending texture delta is applied to the host
  texture cache, then each mesh with at least three vertices becomes one host draw call; a
  `Callback` primitive panics. Module `Painter`. Host
  images, host meshes and draw calls are plain values, and a draw pass returns the list of
  calls it issued.
- **Frame hand-off** (`src/lib.rs:40-42`). Only the step where a finished frame's primitives
  and texture delta are handed to the painter is modelled. Module `Frame`.

Shared vocabulary lives in `Egui` (toolkit types), `Ggez` (host types, plus `Env`, which
stands for the outcome of code outside the model) and `Wrappers` (`Option`, `Result`, `Last`).

Modelling choices:
- f32 coordinates are `real`. Dividing by the scale factor is exact division, so the
  contracts can state the round trip: a logical point scaled back by the factor is the host point.
- Host graphics calls are not modelled. These are `Image::from_rgba8`, `Mesh::from_raw` and
  `graphics::draw`. Whether each call succeeds is a predicate of `Env`. A failure becomes
  `GameError`, as the source's `?` propagates it.
- Panics are `Panic` failures, not preconditions. They come from the texel-count
  `assert_eq!` and from a `Callback` primitive. The one exception is `unreachable!` on
  unknown mouse buttons, which is a precondition.
- `Draw` returns the painter state, the calls issued and an outcome, even when it fails. The
  source mutates the painter in place, so on a failure the popped delta and any textures
  already inserted stay changed.
- Pending deltas: `src/lib.rs:42` pushes at the front and `src/painter.rs:15` pops from the
  front. So the most recent delta is applied first, and only one delta is applied per draw.
  Applying deltas in the order frames ended would need a push at the back; see Findings.
- Where the code does something a reader might not expect, the model follows the code:
  - If a mesh's texture is not cached, the mesh is still drawn, with no texture. It is not
    skipped.
  - The paint jobs are not cleared after a draw. They are drawn again until the next frame
    replaces them.
  - A button event reuses the position of the last motion event. It does not carry its own
    position. `InputTrace.PressThenDragAtScaleTwo` therefore starts with a motion event.
  - `ImageDelta.pos` is ignored, so a partial update replaces the whole texture
    (`Painter.PartialUpdateReplacesWholeTexture`).
- Besides the three private-use areas, `is_printable` excludes only the ASCII control
  characters. C1 controls (U+0080 to U+009F) and the
  noncharacters U+FFFFE, U+FFFFF, U+10FFFE and U+10FFFF count as printable. This is how the
  source behaves, and `Input.IsPrintable` states the printable ranges explicitly.

## Model

| member | source | states |
|---|---|---|
| Input.ToLogical | src/input.rs:80-83 | the stored pointer position, multiplied back by the scale factor, gives the host pixel coordinates |
| Input.SetScaleFactor | src/input.rs:26-31 | the scale factor and pixels-per-point both take the new value. The screen rect starts at the origin and is computed from the new factor: scaled back by it, the rect is the window size. Pointer, events and scroll are unchanged |
| Input.ResizeEvent | src/input.rs:34-39 | the screen rect starts at the origin and, scaled back by the current factor, is exactly w×h; nothing else in the input changes |
| Input.PointerButtonFromHost | src/input.rs:46-51 | Left, Right and Middle map to Primary, Secondary and Middle, in both directions |
| Input.ButtonEvent | src/input.rs:45-55 | a button event is at the stored pointer position, uses the mapped button, has the given pressed flag and has no modifiers |
| Input.MouseButtonDown | src/input.rs:44-56 | exactly one press event is appended at the end. Earlier events are kept in order and nothing else changes |
| Input.MouseButtonUp | src/input.rs:59-71 | exactly one release event is appended at the end. Earlier events are kept in order and nothing else changes |
| Input.MouseWheel | src/input.rs:74-76 | the scroll delta becomes (x, y); the event list, the pointer and everything else are unchanged |
| Input.MouseMotion | src/input.rs:79-85 | the new pointer, scaled back, is the host point. Exactly one PointerMoved carrying that same new position is appended, and nothing else changes |
| Input.KeyFromHost | src/input.rs:127-155 | a key code has a toolkit key exactly when it is one of the 20 listed codes |
| Input.HostKeyOfAfterKeyFromHost | src/input.rs:127-155 | each mapped host code, read back through the inverse table, gives that same code |
| Input.KeyFromHostAfterHostKeyOf | src/input.rs:127-155 | each toolkit key with a host code maps back to that key |
| Input.KeyTableInverse | src/input.rs:127-155 | the key table read backwards inverts it: code maps to key iff key maps back to code |
| Input.KeyFromHostInjective | src/input.rs:127-155 | two different host codes never map to the same toolkit key |
| Input.ModifiersFromHost | src/input.rs:158-171 | on non-macOS, alt, ctrl and shift follow the host flags, command equals ctrl and mac_cmd is false |
| Input.LogoKeyIgnored | src/input.rs:158-171 | on non-macOS, the logo flag has no effect on the modifiers |
| Input.KeyDown | src/input.rs:90-116 | Ctrl+C appends Copy and Ctrl+X appends Cut. Any other mapped key appends one press with its modifiers. An unmapped key leaves the input unchanged. Only the event list can change |
| Input.ClipboardShortcuts | src/input.rs:91-96 | Copy is emitted iff Ctrl+C, Cut iff Ctrl+X, and Ctrl+V emits nothing |
| Input.IsPrintable | src/input.rs:175-181 | a character is printable iff it is neither an ASCII control nor in the three private-use areas, which is equivalent to lying in five explicit code-point ranges |
| Input.TextInput | src/input.rs:119-123 | a printable character appends one single-character Text event; any other character leaves the input unchanged |
| InputTrace.Dispatch | src/input.rs:26-123 | every handler keeps the earlier events as a prefix, in order, and adds at most one event |
| InputTrace.Feed | src/input.rs:26-123 | over any sequence of callbacks, the old events stay a prefix and at most one event is added per callback |
| InputTrace.AppendKeepsInvariant | src/input.rs:44-85 | appending an event keeps every button at its last motion and all text printable; the last pointer changes only on PointerMoved |
| InputTrace.DispatchKeepsConsistent | src/input.rs:26-123 | every handler preserves the invariant: the stored pointer is the last motion, each button sits at the last motion before it, and all text is printable |
| InputTrace.FeedKeepsConsistent | src/input.rs:26-123 | any admissible sequence of callbacks preserves that invariant |
| InputTrace.ButtonsFollowMotion | src/input.rs:44-85 | starting from a fresh Input, every button event carries the position of the last motion before it, or the origin if there was none. All text events are printable |
| InputTrace.ClickAtOnePosition | src/input.rs:44-71 | a press then release with no motion between appends two events at the same stored position, pressed then released |
| InputTrace.WheelLastWins | src/input.rs:74-76 | of two wheel events in one frame only the last is kept |
| InputTrace.ScaleFactorForgetsPrevious | src/input.rs:26-39 | the result of set_scale_factor does not depend on the previous factor, pixels-per-point or screen rect |
| InputTrace.PressThenDragAtScaleTwo | src/input.rs:44-85 | at scale 2, the motion handler at (100,100), a left press and the motion handler at (120,100) append PointerMoved (50,50), a press at (50,50) and PointerMoved (60,50), in that order |
| InputTrace.ResizeAtUnitScale | src/input.rs:34-39 | resizing to 1024×768 at scale 1 gives the screen rect (0,0)-(1024,768) |
| Painter.AsU16 | src/painter.rs:95-99 | the `as u16` cast yields the 16-bit value congruent to the input modulo 65536, so values below 65536 are kept and larger ones wrap around |
| Painter.Rgba8 | src/painter.rs:89-93 | the byte buffer has four bytes per texel |
| Painter.Rgba8Layout | src/painter.rs:89-93 | texel i occupies bytes 4i..4i+3 in RGBA order |
| Painter.IntoImage | src/painter.rs:81-126 | for both encodings, a size/texel-count mismatch panics, and it is the only cause of a panic. On success the buffer has 4 bytes per texel, texel by texel, the dimensions are cast to 16 bits and the host accepted the image. With a well-sized image and a reliable host, it succeeds |
| Painter.SetTextures | src/painter.rs:54-65 | it completes iff every entry converts, and a failure is some entry's conversion error. On success each set id is bound to the image of its last entry. Ids not set are untouched |
| Painter.FreeTextures | src/painter.rs:68-70 | the remaining ids are the cached ids minus the freed ones; absent ids are tolerated and surviving entries keep their images |
| Painter.UpdateTextures | src/painter.rs:52-73 | on success, every id set and not freed is bound to its newly built image and every freed id is absent, even one set by the same delta. Ids neither set nor freed are unchanged. A failed conversion frees nothing |
| Painter.FreeAbsentIsNoOp | src/painter.rs:68-70 | freeing only ids that are not cached leaves the cache exactly as it was |
| Painter.SetThenFreeInOneDelta | src/painter.rs:54-70 | an id both set and freed in one delta is absent afterwards |
| Painter.PartialUpdateReplacesWholeTexture | src/painter.rs:54-64 | a delta with a placement still replaces the cache entry by the sub-image, with its dimensions |
| Painter.ToHostVertex | src/painter.rs:24-28 | position and texture coordinate are copied and the colour is the linear conversion of the vertex colour |
| Painter.ToHostMesh | src/painter.rs:24-35 | the vertex count and order are preserved and the index list is passed through. The bound texture is the cached image for the mesh's id, or none when that id is not cached |
| Painter.Kept | src/painter.rs:19-22 | every kept mesh has at least 3 vertices and there are no more kept meshes than jobs |
| Painter.KeptSingle | src/painter.rs:19-22 | a single job keeps its mesh exactly when it is a mesh with at least 3 vertices, and keeps nothing otherwise |
| Painter.KeptAppend | src/painter.rs:19-22 | the kept meshes of two job lists in a row are those of the first followed by those of the second, so every drawable mesh is kept and paint-job order is preserved |
| Painter.Expected | src/painter.rs:19-41 | a complete pass issues exactly one call per kept mesh |
| Painter.DrawJobs | src/painter.rs:19-47 | the calls issued are always a prefix of the complete pass, in paint-job order. Completion means exactly the complete pass and no callbacks. With a reliable host it completes iff there is no Callback; otherwise it panics with the callback message |
| Painter.DrawnMeshesAreDrawable | src/painter.rs:19-41 | every call draws a mesh with at least 3 vertices at the given scale, and call k draws the k-th kept mesh |
| Painter.Draw | src/painter.rs:13-50 | at most one delta is taken, from the front, and applied before any mesh is drawn: every call uses the updated cache. An empty pending list leaves the cache unchanged. A failed update draws nothing. Paint jobs are kept. With a reliable host, a well-sized delta and no callbacks it completes |
| Frame.EndFrame | src/lib.rs:40-42 | the frame's primitives replace the old ones, its delta becomes the front of the pending list, and the cache is untouched |
| Frame.NewestDeltaAppliedFirst | src/lib.rs:40-42 | when two frames end before a draw, the draw applies the second frame's delta, keeps the first pending and paints only the second frame's primitives |
| Frame.EndFrameInOrder | src/lib.rs:42 | the corrected hand-off: the delta is appended at the back, and the earlier pending deltas keep their order |
| Frame.OldestDeltaAppliedFirst | src/lib.rs:42 | with the corrected hand-off, the deltas of two frames are applied oldest first, one per draw |
| Frame.QuadDrawnWithFreshTexture | src/painter.rs:13-41 | a frame that sets texture 7 to a 2×2 image and paints a 4-vertex, 6-index quad with it issues exactly one call, bound to the newly cached texture 7 |
| Frame.SetThenFreeLeavesTextureCached | src/lib.rs:42 | set texture 7 in one frame and free it in the next, with both frames ending before a draw. After both deltas are drained, texture 7 is still cached |
| Frame.SetThenFreeInOrderFreesTexture | src/lib.rs:42 | with the corrected hand-off, texture 7 is cached after the first draw and absent after the second |

## Left out

- Input.ToLogical: the source divides in f32 and never checks the factor. The model uses exact real division and requires a nonzero factor. Rounding, infinities and NaN from a zero factor are not modelled.
- Input.SetScaleFactor: requires a nonzero factor, for the same reason.
- Input.ResizeEvent: requires a nonzero stored factor, for the same reason.
- Input.MouseMotion: requires a nonzero stored factor, for the same reason.
- InputTrace.Dispatch: requires a nonzero factor and a translated mouse button, as the handlers it calls do.
- InputTrace.Feed: has the same requirements as Dispatch.
- Input.MouseButtonDown: a button other than Left, Right or Middle panics with `unreachable!`. The model excludes it by precondition.
- Input.MouseButtonUp: excludes other buttons by precondition, for the same reason.
- The Ctrl+V branch is behind the `clipboard` feature and calls `unimplemented!()`. It is not modelled; with the feature off, Ctrl+V is an unmapped key.
- The macOS variant of the modifier mapping, where the logo key drives `mac_cmd` and `command`, is not modelled. Only the non-macOS branch is.
- The scale in `DrawParam::scale` is not modelled. A draw call records the factor it is drawn with, but the host-side scaling is not computed.
- `Rgba::from(color)` is floating-point. It is kept symbolic: `Ggez.LinearRgba` records the colour it came from.
- `FontImage::srgba_pixels(1.0)` is floating-point. Its per-texel conversion is the `Env.fontTexel` parameter.
- Painter.IntoImage: the `usize` product `width * height` is unbounded in the model, so its overflow is not modelled. The model does not say when the host rejects an image or mesh; that decision is an `Env` predicate.
- `src/lib.rs` beyond lines 40-42 is not modelled. That covers the `Gui` facade, `GuiContext`, the `Arc<Mutex<_>>` sharing, the `Drop`-driven `end_frame` and `tessellate`, and `begin_frame`. That file calls `input.take`, `input.update`, `painter.update` and a canvas `draw`, and writes a `shapes` field. None of these exist in the `input.rs` and `painter.rs` of this version, so that file belongs to another version of the crate. The second argument of its `push_front`, pixels-per-point, is ignored.
- The egui event kinds the adapter never produces (paste, scroll, zoom, key release and others) are not part of `Egui.Event`.
- The `examples/` programs are application code and are not modelled.

## Findings

| source | as written | input that shows it | evidently intended | confidence | as-written member | corrected member |
|---|---|---|---|---|---|---|
| src/lib.rs:42 | each ended frame's texture delta is pushed at the front of the pending list, and `draw` pops from the front, so pending deltas are applied newest first | two frames end before a draw; the first sets texture 7 and the second frees it; two draws then leave texture 7 cached | deltas applied in the order the frames ended (push at the back), so texture 7 is freed | low; not executed (lib.rs does not match the `painter.rs` API of this version) | Frame.SetThenFreeLeavesTextureCached | Frame.SetThenFreeInOrderFreesTexture |

=== FILE: egui.dfy ===
/** The immediate-mode GUI toolkit's (egui's) data vocabulary, as far as the adapter
    produces or consumes it. Floating-point coordinates are modelled as `real`. */
module Egui {
  import opened Wrappers

  /** An unsigned byte. */
  type byte = x: int | 0 <= x < 0x100

  /** An unsigned 32-bit integer (mesh indices). */
  type u32 = x: int | 0 <= x < 0x1_0000_0000

  /** A point in logical (toolkit) coordinates. */
  datatype Pos2 = Pos2(x: real, y: real)

  /** A displacement in logical coordinates. */
  datatype Vec2 = Vec2(x: real, y: real)

  const Origin := Pos2(0.0, 0.0)
  const ZeroVec := Vec2(0.0, 0.0)

  /** An axis-aligned rectangle given by its two corners. */
  datatype Rect = Rect(min: Pos2, max: Pos2)

  /** `Rect::from_min_size`: the rectangle whose top-left corner is `min`. */
  function RectFromMinSize(min: Pos2, size: Vec2): (r: Rect)
    ensures r.min == min
    ensures r.max.x - r.min.x == size.x && r.max.y - r.min.y == size.y
  {
    Rect(min, Pos2(min.x + size.x, min.y + size.y))
  }

  /** The toolkit's key vocabulary. */
  datatype Key
    = ArrowDown | ArrowLeft | ArrowRight | ArrowUp | Escape | Tab | Backspace | Enter
    | Space | Insert | Delete | Home | End | PageUp | PageDown | Num0 | Num1 | Num2
    | Num3 | Num4 | Num5 | Num6 | Num7 | Num8 | Num9 | A | B | C | D | E | F | G | H
    | I | J | K | L | M | N | O | P | Q | R | S | T | U | V | W | X | Y | Z

  /** Mouse buttons the toolkit distinguishes. */
  datatype PointerButton = Primary | Secondary | Middle

  /** Modifier keys held during an event. On platforms other than macOS `command` mirrors
      `ctrl` and `macCmd` is always false. */
  datatype Modifiers = Modifiers(alt: bool, ctrl: bool, shift: bool, macCmd: bool, command: bool)

  /** `Modifiers::default()`: nothing held. */
  const NoModifiers := Modifiers(false, false, false, false, false)

  /** The input events the adapter emits (the toolkit knows more kinds; the adapter never
      produces the others). */
  datatype Event =
    | PointerMoved(pos: Pos2)
    | PointerButtonEvent(pos: Pos2, button: PointerButton, pressed: bool, modifiers: Modifiers)
    | KeyEvent(key: Key, pressed: bool, modifiers: Modifiers)
    | Text(text: string)
    | Copy
    | Cut

  /** The input snapshot handed to the toolkit at the start of a frame. */
  datatype RawInput = RawInput(
    screenRect: Option<Rect>,
    pixelsPerPoint: Option<real>,
    scrollDelta: Vec2,
    events: seq<Event>)

  /** `RawInput::default()`. */
  const DefaultRawInput := RawInput(None, None, ZeroVec, [])

  /** Identifies a texture: allocated by the toolkit, or by the user. */
  datatype TextureId = Managed(id: nat) | User(id: nat)

  /** A premultiplied sRGBA colour, one byte per channel. */
  datatype Color32 = Color32(r: byte, g: byte, b: byte, a: byte) {
    /** `Color32::to_array`: the channels in RGBA order. */
    function ToArray(): (bytes: seq<byte>)
      ensures |bytes| == 4
      ensures bytes[0] == r && bytes[1] == g && bytes[2] == b && bytes[3] == a
    {
      [r, g, b, a]
    }
  }

  /** A full-colour image of `width` by `height` texels, row by row. */
  datatype ColorImage = ColorImage(width: nat, height: nat, pixels: seq<Color32>)

  /** A single-channel coverage image (the font atlas). */
  datatype FontImage = FontImage(width: nat, height: nat, pixels: seq<real>)

  /** The two pixel encodings a texture update can carry. */
  datatype ImageData = Color(color: ColorImage) | Font(font: FontImage)

  /** A texture update: the new image, and where to place it if it is a partial update. */
  datatype ImageDelta = ImageDelta(image: ImageData, pos: Option<(nat, nat)>)

  /** One frame's texture changes: `sets` creates or replaces textures, in order; `free` then releases textures. */
  datatype TexturesDelta = TexturesDelta(sets: seq<(TextureId, ImageDelta)>, free: seq<TextureId>)

  /** A mesh vertex: position, texture coordinate and colour. */
  datatype Vertex = Vertex(pos: Pos2, uv: Pos2, color: Color32)

  /** A textured triangle mesh. */
  datatype Mesh = Mesh(indices: seq<u32>, vertices: seq<Vertex>, textureId: TextureId)

  /** A tessellated primitive: a mesh, or a backend-specific paint callback. */
  datatype Primitive = MeshPrimitive(mesh: Mesh) | Callback(callbackId: nat)

  /** A primitive with the rectangle it is clipped to. */
  datatype ClippedPrimitive = ClippedPrimitive(clipRect: Rect, primitive: Primitive)
}

=== FILE: frame.dfy ===
/** The end-of-frame hand-off to the painter (src/lib.rs): when the frame handle is
    released, the frame's primitives replace the previous ones and its texture delta joins
    the pending list. `Painter.Draw` takes pending deltas from the front. */
module Frame {
  import opened Wrappers
  import opened Egui
  import opened Ggez
  import opened Painter

  /** Releasing the frame handle: the new primitives supersede the old ones and the
      delta is pushed at the FRONT of the pending list, so the newest pending delta is the
      next one `Draw` applies. */
  function EndFrame(p: Painter, jobs: seq<ClippedPrimitive>, delta: TexturesDelta): (r: Painter)
    ensures r.paintJobs == jobs && r.textures == p.textures
    ensures |r.texturesDelta| == |p.texturesDelta| + 1
    ensures r.texturesDelta[0] == delta && r.texturesDelta[1..] == p.texturesDelta
  {
    p.(paintJobs := jobs, texturesDelta := [delta] + p.texturesDelta)
  }

  /** Two frames ended before a draw: the draw applies the second frame's delta, keeps the
      first one pending, and paints only the second frame's primitives. */
  lemma NewestDeltaAppliedFirst(p: Painter, j1: seq<ClippedPrimitive>, d1: TexturesDelta,
                                j2: seq<ClippedPrimitive>, d2: TexturesDelta, env: Env, scale: real)
    ensures var r := Draw(EndFrame(EndFrame(p, j1, d1), j2, d2), env, scale);
      && r.painter.textures == UpdateTextures(p.textures, d2, env).cache
      && r.painter.texturesDelta == [d1] + p.texturesDelta
      && r.painter.paintJobs == j2
  {
  }

  /** The order-preserving hand-off: the delta is appended at the BACK of the pending list,
      so `Draw`, taking from the front, applies deltas in the order frames ended. */
  function EndFrameInOrder(p: Painter, jobs: seq<ClippedPrimitive>, delta: TexturesDelta): (r: Painter)
    ensures r.paintJobs == jobs && r.textures == p.textures
    ensures |r.texturesDelta| == |p.texturesDelta| + 1
    ensures r.texturesDelta[..|p.texturesDelta|] == p.texturesDelta && Last(r.texturesDelta) == delta
  {
    p.(paintJobs := jobs, texturesDelta := p.texturesDelta + [delta])
  }

  /** With the order-preserving hand-off, two frames ended before a draw have their deltas
      applied oldest first, one per draw. */
  lemma {:induction false} OldestDeltaAppliedFirst(p: Painter, j1: seq<ClippedPrimitive>, d1: TexturesDelta,
                                j2: seq<ClippedPrimitive>, d2: TexturesDelta, env: Env, scale: real)
    requires p.texturesDelta == []
    ensures var r1 := Draw(EndFrameInOrder(EndFrameInOrder(p, j1, d1), j2, d2), env, scale);
      && r1.painter.textures == UpdateTextures(p.textures, d1, env).cache
      && r1.painter.texturesDelta == [d2]
      && Draw(r1.painter, env, scale).painter.textures == UpdateTextures(r1.painter.textures, d2, env).cache
  {
    var q := EndFrameInOrder(EndFrameInOrder(p, j1, d1), j2, d2);
    assert q.texturesDelta == [d1, d2];
    var r1 := Draw(q, env, scale);
    assert r1.painter.texturesDelta == [d1, d2][1..] == [d2];
  }

  /*======================= Scenarios =======================*/

  /** A host on which every graphics call succeeds. */
  function HostThatNeverFails(): (env: Env)
    ensures Reliable(env)
  {
    Env(c => Color32(0, 0, 0, 0), img => true, m => true, c => true)
  }

  const White := Color32(255, 255, 255, 255)
  const Texture7 := Managed(7)

  /** Sets texture 7 to a 2x2 white image. */
  const SetWhite7 := TexturesDelta([(Texture7, ImageDelta(Color(ColorImage(2, 2, [White, White, White, White])), None))], [])

  /** Frees texture 7. */
  const Free7 := TexturesDelta([], [Texture7])

  /** A quad (four vertices, two triangles) textured with texture 7. */
  function Quad7(): (m: Mesh)
    ensures Drawable(m) && m.textureId == Texture7 && |m.indices| == 6
  {
    var v := Vertex(Origin, Origin, White);
    Mesh([0, 1, 2, 0, 2, 3], [v, v, v, v], Texture7)
  }

  /** A frame that sets texture 7 and paints one quad with it: the draw issues exactly one
      call, and that call's mesh is bound to the freshly cached texture 7. */
  lemma QuadDrawnWithFreshTexture(scale: real)
    ensures var r := Draw(EndFrame(Empty, [ClippedPrimitive(Rect(Origin, Origin), MeshPrimitive(Quad7()))], SetWhite7),
                          HostThatNeverFails(), scale);
      && r.outcome.Done?
      && Texture7 in r.painter.textures
      && |r.log| == 1
      && r.log[0].mesh.texture == Some(r.painter.textures[Texture7])
      && |r.log[0].mesh.vertices| == 4 && |r.log[0].mesh.indices| == 6
  {
    var jobs := [ClippedPrimitive(Rect(Origin, Origin), MeshPrimitive(Quad7()))];
    var env := HostThatNeverFails();
    assert WellSized(SetWhite7);
    assert Texture7 in SetIds(SetWhite7.sets) by { assert SetWhite7.sets[0].0 == Texture7; }
    assert FreeIds([]) == {};
    assert Kept(jobs) == [Quad7()] by { assert jobs[1..] == []; }
  }

  /** A frame that sets texture 7 and a later frame that frees it, both ended before the
      next draw: with the front-pushing hand-off the free is applied first and the set
      second, so texture 7 stays cached after both deltas are drained. */
  lemma SetThenFreeLeavesTextureCached(scale: real)
    ensures var env := HostThatNeverFails();
      var r1 := Draw(EndFrame(EndFrame(Empty, [], SetWhite7), [], Free7), env, scale);
      var r2 := Draw(r1.painter, env, scale);
      && r2.painter.texturesDelta == []
      && Texture7 in r2.painter.textures
  {
    var env := HostThatNeverFails();
    var r1 := Draw(EndFrame(EndFrame(Empty, [], SetWhite7), [], Free7), env, scale);
    assert r1.painter.texturesDelta == [SetWhite7];
    assert Texture7 in SetIds(SetWhite7.sets) by { assert SetWhite7.sets[0].0 == Texture7; }
    assert FreeIds([]) == {};
    assert WellSized(SetWhite7);
  }

  /** The same two frames with the order-preserving hand-off: texture 7 is cached after the
      first draw and absent after the second. */
  lemma SetThenFreeInOrderFreesTexture(scale: real)
    ensures var env := HostThatNeverFails();
      var r1 := Draw(EndFrameInOrder(EndFrameInOrder(Empty, [], SetWhite7), [], Free7), env, scale);
      var r2 := Draw(r1.painter, env, scale);
      && Texture7 in r1.painter.textures
      && r2.painter.texturesDelta == []
      && Texture7 !in r2.painter.textures
  {
    var env := HostThatNeverFails();
    var q := EndFrameInOrder(EndFrameInOrder(Empty, [], SetWhite7), [], Free7);
    assert q.texturesDelta == [SetWhite7, Free7];
    var r1 := Draw(q, env, scale);
    assert r1.painter.texturesDelta == [Free7];
    assert Texture7 in SetIds(SetWhite7.sets) by { assert SetWhite7.sets[0].0 == Texture7; }
    assert FreeIds([]) == {};
    assert WellSized(SetWhite7);
    assert Texture7 in FreeIds(Free7.free) by { assert Free7.free[0] == Texture7; }
  }
}

=== FILE: ggez.dfy ===
/** The host engine's (ggez's) side of the boundary: its input vocabulary and the values
    its graphics calls build. The graphics calls themselves are external; `Env` stands for
    their outcome. */
module Ggez {
  import opened Wrappers
  import opened Egui

  /** The host's virtual key codes. */
  datatype KeyCode
    = Key1 | Key2 | Key3 | Key4 | Key5 | Key6 | Key7 | Key8 | Key9 | Key0 | A | B | C
    | D | E | F | G | H | I | J | K | L | M | N | O | P | Q | R | S | T | U | V | W | X
    | Y | Z | Escape | F1 | F2 | F3 | F4 | F5 | F6 | F7 | F8 | F9 | F10 | F11 | F12
    | F13 | F14 | F15 | F16 | F17 | F18 | F19 | F20 | F21 | F22 | F23 | F24 | Snapshot
    | Scroll | Pause | Insert | Home | Delete | End | PageDown | PageUp | Left | Up
    | Right | Down | Back | Return | Space | Compose | Caret | Numlock | Numpad0
    | Numpad1 | Numpad2 | Numpad3 | Numpad4 | Numpad5 | Numpad6 | Numpad7 | Numpad8
    | Numpad9 | NumpadAdd | NumpadDivide | NumpadDecimal | NumpadComma | NumpadEnter
    | NumpadEquals | NumpadMultiply | NumpadSubtract | AbntC1 | AbntC2 | Apostrophe
    | Apps | Asterisk | At | Ax | Backslash | Calculator | Capital | Colon | Comma
    | Convert | Equals | Grave | Kana | Kanji | LAlt | LBracket | LControl | LShift
    | LWin | Mail | MediaSelect | MediaStop | Minus | Mute | MyComputer
    | NavigateForward | NavigateBackward | NextTrack | NoConvert | OEM102 | Period
    | PlayPause | Plus | Power | PrevTrack | RAlt | RBracket | RControl | RShift | RWin
    | Semicolon | Slash | Sleep | Stop | Sysrq | Tab | Underline | Unlabeled
    | VolumeDown | VolumeUp | Wake | WebBack | WebFavorites | WebForward | WebHome
    | WebRefresh | WebSearch | WebStop | Yen | Copy | Paste | Cut

  /** The host's modifier flags. */
  datatype KeyMods = KeyMods(shift: bool, ctrl: bool, alt: bool, logo: bool)

  /** The host's mouse buttons; `Other` carries the raw button number. */
  datatype MouseButton = Left | Right | Middle | Other(number: nat)

  /** A linear-space RGBA colour obtained from an sRGBA colour (`Rgba::from`). The
      floating-point conversion is kept symbolic: the value records what it was made from. */
  datatype LinearRgba = FromColor32(source: Color32)

  /** The host's vertex format. */
  datatype HostVertex = HostVertex(pos: Pos2, uv: Pos2, color: LinearRgba)

  /** An uploaded RGBA texture. Its dimensions are 16-bit in the host's API. */
  datatype HostImage = HostImage(width: nat, height: nat, rgba: seq<byte>)

  /** An indexed triangle mesh as built by the host, bound to an optional texture. */
  datatype HostMesh = HostMesh(vertices: seq<HostVertex>, indices: seq<u32>, texture: Option<HostImage>)

  /** One issued draw call: the mesh drawn, uniformly scaled by `scale`. */
  datatype DrawCall = DrawCall(mesh: HostMesh, scale: real)

  /** The code outside the model that the painter calls: the toolkit's font-coverage
      expansion (`srgba_pixels` with gamma 1.0, one texel at a time) and whether each host
      graphics call (`Image::from_rgba8`, `Mesh::from_raw`, `graphics::draw`) succeeds. */
  datatype Env = Env(
    fontTexel: real -> Color32,
    imageOk: HostImage -> bool,
    meshOk: HostMesh -> bool,
    drawOk: DrawCall -> bool)

  /** An environment in which no host graphics call fails. */
  ghost predicate Reliable(env: Env) {
    && (forall img :: env.imageOk(img))
    && (forall m :: env.meshOk(m))
    && (forall c :: env.drawOk(c))
  }
}

=== FILE: input.dfy ===
/** The input side of the adapter (src/input.rs): host callbacks translated into the
    toolkit's events and accumulated in a `RawInput`. */
module Input {
  import opened Wrappers
  import opened Egui
  import Ggez

  /** The accumulated input: the last pointer position in logical coordinates, the raw
      input that will be handed to the toolkit, and the UI scale factor. */
  datatype Input = Input(pointerPos: Pos2, raw: RawInput, scaleFactor: real)

  /** `Input::default()`: pointer at the origin, empty raw input, scale factor 1. */
  const Default := Input(Origin, DefaultRawInput, 1.0)

  /*======================= Scale =======================*/

  /** A host pixel point in logical coordinates: scaled back by `factor` it is the point. */
  function ToLogical(x: real, y: real, factor: real): (p: Pos2)
    requires factor != 0.0
    ensures p.x * factor == x && p.y * factor == y
  {
    Pos2(x / factor, y / factor)
  }

  /** `set_scale_factor`: the factor and `pixels_per_point` take the new value, then the
      screen rectangle is recomputed from it. */
  function SetScaleFactor(inp: Input, factor: real, w: real, h: real): (r: Input)
    requires factor != 0.0
    ensures r.scaleFactor == factor && r.raw.pixelsPerPoint == Some(factor)
    ensures r.raw.screenRect.Some? && r.raw.screenRect.value.min == Origin
    ensures r.raw.screenRect.value.max.x * factor == w && r.raw.screenRect.value.max.y * factor == h
    ensures r.pointerPos == inp.pointerPos
    ensures r.raw.events == inp.raw.events && r.raw.scrollDelta == inp.raw.scrollDelta
  {
    ResizeEvent(inp.(scaleFactor := factor, raw := inp.raw.(pixelsPerPoint := Some(factor))), w, h)
  }

  /** `resize_event`: the screen rectangle starts at the origin and, scaled back by the
      current factor, is exactly the window; nothing else changes. */
  function ResizeEvent(inp: Input, w: real, h: real): (r: Input)
    requires inp.scaleFactor != 0.0
    ensures r.raw.screenRect.Some? && r.raw.screenRect.value.min == Origin
    ensures r.raw.screenRect.value.max.x * inp.scaleFactor == w
    ensures r.raw.screenRect.value.max.y * inp.scaleFactor == h
    ensures r.(raw := r.raw.(screenRect := inp.raw.screenRect)) == inp
  {
    var size := ToLogical(w, h, inp.scaleFactor);
    inp.(raw := inp.raw.(screenRect := Some(RectFromMinSize(Origin, Vec2(size.x, size.y)))))
  }

  /*======================= Mouse =======================*/

  /** The host buttons the adapter translates; any other button is unreachable. */
  predicate IsTranslatable(button: Ggez.MouseButton) {
    !button.Other?
  }

  /** The toolkit button for a host button. */
  function PointerButtonFromHost(button: Ggez.MouseButton): (r: PointerButton)
    requires IsTranslatable(button)
    ensures r == Primary <==> button == Ggez.MouseButton.Left
    ensures r == Secondary <==> button == Ggez.MouseButton.Right
    ensures r == Middle <==> button == Ggez.MouseButton.Middle
  {
    match button
    case Left => Primary
    case Right => Secondary
    case Middle => Middle
  }

  /** The event a button transition appends: at the stored pointer position, no modifiers. */
  function ButtonEvent(inp: Input, button: Ggez.MouseButton, pressed: bool): (e: Event)
    requires IsTranslatable(button)
    ensures e.PointerButtonEvent? && e.pos == inp.pointerPos && e.pressed == pressed
    ensures e.button == PointerButtonFromHost(button) && e.modifiers == NoModifiers
  {
    PointerButtonEvent(inp.pointerPos, PointerButtonFromHost(button), pressed, NoModifiers)
  }

  /** `mouse_button_down_event`: appends one press at the stored position; nothing else changes. */
  function MouseButtonDown(inp: Input, button: Ggez.MouseButton): (r: Input)
    requires IsTranslatable(button)
    ensures |r.raw.events| == |inp.raw.events| + 1
    ensures r.raw.events[..|inp.raw.events|] == inp.raw.events
    ensures Last(r.raw.events) == ButtonEvent(inp, button, true)
    ensures r.(raw := r.raw.(events := inp.raw.events)) == inp
  {
    inp.(raw := inp.raw.(events := inp.raw.events + [ButtonEvent(inp, button, true)]))
  }

  /** `mouse_button_up_event`: appends one release at the stored position; nothing else changes. */
  function MouseButtonUp(inp: Input, button: Ggez.MouseButton): (r: Input)
    requires IsTranslatable(button)
    ensures |r.raw.events| == |inp.raw.events| + 1
    ensures r.raw.events[..|inp.raw.events|] == inp.raw.events
    ensures Last(r.raw.events) == ButtonEvent(inp, button, false)
    ensures r.(raw := r.raw.(events := inp.raw.events)) == inp
  {
    inp.(raw := inp.raw.(events := inp.raw.events + [ButtonEvent(inp, button, false)]))
  }

  /** `mouse_wheel_event`: overwrites the scroll delta; no event, pointer unchanged. */
  function MouseWheel(inp: Input, x: real, y: real): (r: Input)
    ensures r.raw.scrollDelta == Vec2(x, y)
    ensures r.raw.events == inp.raw.events && r.pointerPos == inp.pointerPos
    ensures r.(raw := r.raw.(scrollDelta := inp.raw.scrollDelta)) == inp
  {
    inp.(raw := inp.raw.(scrollDelta := Vec2(x, y)))
  }

  /** `mouse_motion_event`: stores the logical pointer position and appends one
      `PointerMoved` carrying that same position. */
  function MouseMotion(inp: Input, x: real, y: real): (r: Input)
    requires inp.scaleFactor != 0.0
    ensures r.pointerPos.x * inp.scaleFactor == x && r.pointerPos.y * inp.scaleFactor == y
    ensures r.raw.events == inp.raw.events + [PointerMoved(r.pointerPos)]
    ensures r.(pointerPos := inp.pointerPos, raw := r.raw.(events := inp.raw.events)) == inp
  {
    var p := ToLogical(x, y, inp.scaleFactor);
    inp.(pointerPos := p, raw := inp.raw.(events := inp.raw.events + [PointerMoved(p)]))
  }

  /*======================= Keyboard =======================*/

  /** The host key codes that have a toolkit key. */
  const MappedKeyCodes: set<Ggez.KeyCode> := {
      Ggez.KeyCode.Escape, Ggez.KeyCode.Insert, Ggez.KeyCode.Home, Ggez.KeyCode.Delete, Ggez.KeyCode.End,
      Ggez.KeyCode.PageDown, Ggez.KeyCode.PageUp, Ggez.KeyCode.Left, Ggez.KeyCode.Up, Ggez.KeyCode.Right,
      Ggez.KeyCode.Down, Ggez.KeyCode.Back, Ggez.KeyCode.Return, Ggez.KeyCode.Tab, Ggez.KeyCode.Space,
      Ggez.KeyCode.A, Ggez.KeyCode.K, Ggez.KeyCode.U, Ggez.KeyCode.W, Ggez.KeyCode.Z
    }

  /** `winit_to_egui_key_code`: the partial key table. */
  function KeyFromHost(code: Ggez.KeyCode): (r: Option<Key>)
    ensures r.Some? <==> code in MappedKeyCodes
  {
    match code
    case Escape => Some(Key.Escape)
    case Insert => Some(Key.Insert)
    case Home => Some(Key.Home)
    case Delete => Some(Key.Delete)
    case End => Some(Key.End)
    case PageDown => Some(Key.PageDown)
    case PageUp => Some(Key.PageUp)
    case Left => Some(Key.ArrowLeft)
    case Up => Some(Key.ArrowUp)
    case Right => Some(Key.ArrowRight)
    case Down => Some(Key.ArrowDown)
    case Back => Some(Key.Backspace)
    case Return => Some(Key.Enter)
    case Tab => Some(Key.Tab)
    case Space => Some(Key.Space)
    case A => Some(Key.A)
    case K => Some(Key.K)
    case U => Some(Key.U)
    case W => Some(Key.W)
    case Z => Some(Key.Z)
    case _ => None
  }

  /** The host key code each toolkit key comes from, if any: the table read backwards. */
  function HostKeyOf(key: Key): (r: Option<Ggez.KeyCode>)
  {
    match key
    case Escape => Some(Ggez.KeyCode.Escape)
    case Insert => Some(Ggez.KeyCode.Insert)
    case Home => Some(Ggez.KeyCode.Home)
    case Delete => Some(Ggez.KeyCode.Delete)
    case End => Some(Ggez.KeyCode.End)
    case PageDown => Some(Ggez.KeyCode.PageDown)
    case PageUp => Some(Ggez.KeyCode.PageUp)
    case ArrowLeft => Some(Ggez.KeyCode.Left)
    case ArrowUp => Some(Ggez.KeyCode.Up)
    case ArrowRight => Some(Ggez.KeyCode.Right)
    case ArrowDown => Some(Ggez.KeyCode.Down)
    case Backspace => Some(Ggez.KeyCode.Back)
    case Enter => Some(Ggez.KeyCode.Return)
    case Tab => Some(Ggez.KeyCode.Tab)
    case Space => Some(Ggez.KeyCode.Space)
    case A => Some(Ggez.KeyCode.A)
    case K => Some(Ggez.KeyCode.K)
    case U => Some(Ggez.KeyCode.U)
    case W => Some(Ggez.KeyCode.W)
    case Z => Some(Ggez.KeyCode.Z)
    case _ => None
  }

  /** Reading a mapped host key back through `HostKeyOf` gives the host key again. */
  lemma HostKeyOfAfterKeyFromHost(code: Ggez.KeyCode)
    ensures KeyFromHost(code).Some? ==> HostKeyOf(KeyFromHost(code).value) == Some(code)
  {
    if code in MappedKeyCodes {
      MappedKeyReadsBack(code);
    }
  }

  /** The same for a code known to be one of the 20, split into groups of five codes. The
      groups keep each proof small: with an empty body, `HostKeyOfAfterKeyFromHost` exceeds a
      resource limit of 2,000,000 under solver seed 3. */
  lemma MappedKeyReadsBack(code: Ggez.KeyCode)
    requires code in MappedKeyCodes
    ensures HostKeyOf(KeyFromHost(code).value) == Some(code)
  {
    if code in {Ggez.KeyCode.Escape, Ggez.KeyCode.Insert, Ggez.KeyCode.Home, Ggez.KeyCode.Delete, Ggez.KeyCode.End} {
      KeyGroupReadsBack1(code);
    } else if code in {Ggez.KeyCode.PageDown, Ggez.KeyCode.PageUp, Ggez.KeyCode.Left, Ggez.KeyCode.Up, Ggez.KeyCode.Right} {
      KeyGroupReadsBack2(code);
    } else if code in {Ggez.KeyCode.Down, Ggez.KeyCode.Back, Ggez.KeyCode.Return, Ggez.KeyCode.Tab, Ggez.KeyCode.Space} {
      KeyGroupReadsBack3(code);
    } else if code in {Ggez.KeyCode.A, Ggez.KeyCode.K, Ggez.KeyCode.U, Ggez.KeyCode.W, Ggez.KeyCode.Z} {
      KeyGroupReadsBack4(code);
    }
  }

  /** One group of five mapped codes, checked one code at a time. */
  lemma KeyGroupReadsBack1(code: Ggez.KeyCode)
    requires code in {Ggez.KeyCode.Escape, Ggez.KeyCode.Insert, Ggez.KeyCode.Home, Ggez.KeyCode.Delete, Ggez.KeyCode.End}
    ensures HostKeyOf(KeyFromHost(code).value) == Some(code)
  {
    if code == Ggez.KeyCode.Escape {
    } else if code == Ggez.KeyCode.Insert {
    } else if code == Ggez.KeyCode.Home {
    } else if code == Ggez.KeyCode.Delete {
    }
  }

  /** As `KeyGroupReadsBack1`, for the next five codes. */
  lemma KeyGroupReadsBack2(code: Ggez.KeyCode)
    requires code in {Ggez.KeyCode.PageDown, Ggez.KeyCode.PageUp, Ggez.KeyCode.Left, Ggez.KeyCode.Up, Ggez.KeyCode.Right}
    ensures HostKeyOf(KeyFromHost(code).value) == Some(code)
  {
    if code == Ggez.KeyCode.PageDown {
    } else if code == Ggez.KeyCode.PageUp {
    } else if code == Ggez.KeyCode.Left {
    } else if code == Ggez.KeyCode.Up {
    }
  }

  /** As `KeyGroupReadsBack1`, for the next five codes. */
  lemma KeyGroupReadsBack3(code: Ggez.KeyCode)
    requires code in {Ggez.KeyCode.Down, Ggez.KeyCode.Back, Ggez.KeyCode.Return, Ggez.KeyCode.Tab, Ggez.KeyCode.Space}
    ensures HostKeyOf(KeyFromHost(code).value) == Some(code)
  {
    if code == Ggez.KeyCode.Down {
    } else if code == Ggez.KeyCode.Back {
    } else if code == Ggez.KeyCode.Return {
    } else if code == Ggez.KeyCode.Tab {
    }
  }

  /** As `KeyGroupReadsBack1`, for the next five codes. */
  lemma KeyGroupReadsBack4(code: Ggez.KeyCode)
    requires code in {Ggez.KeyCode.A, Ggez.KeyCode.K, Ggez.KeyCode.U, Ggez.KeyCode.W, Ggez.KeyCode.Z}
    ensures HostKeyOf(KeyFromHost(code).value) == Some(code)
  {
    if code == Ggez.KeyCode.A {
    } else if code == Ggez.KeyCode.K {
    } else if code == Ggez.KeyCode.U {
    } else if code == Ggez.KeyCode.W {
    }
  }

  /** Mapping the host key `HostKeyOf` gives for a toolkit key returns that toolkit key. */
  lemma KeyFromHostAfterHostKeyOf(key: Key)
    ensures HostKeyOf(key).Some? ==> KeyFromHost(HostKeyOf(key).value) == Some(key)
  {
  }

  /** `HostKeyOf` inverts the key table, in both directions. */
  lemma KeyTableInverse(code: Ggez.KeyCode, key: Key)
    ensures KeyFromHost(code) == Some(key) <==> HostKeyOf(key) == Some(code)
  {
    HostKeyOfAfterKeyFromHost(code);
    KeyFromHostAfterHostKeyOf(key);
  }

  /** Two host keys never map to the same toolkit key. */
  lemma KeyFromHostInjective(c1: Ggez.KeyCode, c2: Ggez.KeyCode)
    requires KeyFromHost(c1).Some? && KeyFromHost(c1) == KeyFromHost(c2)
    ensures c1 == c2
  {
    KeyTableInverse(c1, KeyFromHost(c1).value);
    KeyTableInverse(c2, KeyFromHost(c1).value);
  }

  /** `ggez_to_egui_modifiers` (non-macOS): alt, ctrl and shift follow the host flags,
      `command` follows ctrl, and `macCmd` is never set. */
  function ModifiersFromHost(mods: Ggez.KeyMods): (r: Modifiers)
    ensures r.alt == mods.alt && r.ctrl == mods.ctrl && r.shift == mods.shift
    ensures !r.macCmd && r.command == mods.ctrl
  {
    Modifiers(alt := mods.alt, ctrl := mods.ctrl, shift := mods.shift, macCmd := false, command := mods.ctrl)
  }

  /** The logo key does not reach the toolkit outside macOS. */
  lemma LogoKeyIgnored(mods: Ggez.KeyMods)
    ensures ModifiersFromHost(mods) == ModifiersFromHost(mods.(logo := !mods.logo))
  {
  }

  /** `key_down_event`: Ctrl+C and Ctrl+X become the copy and cut commands; any other key
      becomes a key press with its modifiers when the table maps it, and nothing otherwise. */
  function KeyDown(inp: Input, code: Ggez.KeyCode, mods: Ggez.KeyMods): (r: Input)
    ensures mods.ctrl && code == Ggez.KeyCode.C ==> r.raw.events == inp.raw.events + [Copy]
    ensures mods.ctrl && code == Ggez.KeyCode.X ==> r.raw.events == inp.raw.events + [Cut]
    ensures !(mods.ctrl && code in {Ggez.KeyCode.C, Ggez.KeyCode.X}) && code in MappedKeyCodes ==>
      r.raw.events == inp.raw.events + [KeyEvent(KeyFromHost(code).value, true, ModifiersFromHost(mods))]
    ensures !(mods.ctrl && code in {Ggez.KeyCode.C, Ggez.KeyCode.X}) && code !in MappedKeyCodes ==> r == inp
    ensures r.(raw := r.raw.(events := inp.raw.events)) == inp
  {
    if mods.ctrl && code == Ggez.KeyCode.C then
      Push(inp, Copy)
    else if mods.ctrl && code == Ggez.KeyCode.X then
      Push(inp, Cut)
    else
      match KeyFromHost(code)
      case Some(key) => Push(inp, KeyEvent(key, true, ModifiersFromHost(mods)))
      case None => inp
  }

  /** Appends one event to the raw input. */
  function Push(inp: Input, e: Event): Input {
    inp.(raw := inp.raw.(events := inp.raw.events + [e]))
  }

  /** Only Ctrl+C and Ctrl+X produce the copy and cut commands, and Ctrl+V produces
      nothing at all. */
  lemma ClipboardShortcuts(inp: Input, code: Ggez.KeyCode, mods: Ggez.KeyMods)
    ensures (Copy in KeyDown(inp, code, mods).raw.events[|inp.raw.events|..])
      <==> mods.ctrl && code == Ggez.KeyCode.C
    ensures (Cut in KeyDown(inp, code, mods).raw.events[|inp.raw.events|..])
      <==> mods.ctrl && code == Ggez.KeyCode.X
    ensures mods.ctrl && code == Ggez.KeyCode.V ==> KeyDown(inp, code, mods) == inp
  {
    var added := KeyDown(inp, code, mods).raw.events[|inp.raw.events|..];
    if mods.ctrl && code in {Ggez.KeyCode.C, Ggez.KeyCode.X} {
      assert |added| == 1;
    } else if code in MappedKeyCodes {
      assert added == [KeyEvent(KeyFromHost(code).value, true, ModifiersFromHost(mods))];
    } else {
      assert added == [];
    }
  }

  /** Rust's `char::is_ascii_control`: U+0000 to U+001F and U+007F. */
  predicate IsAsciiControl(c: char) {
    c as int < 0x20 || c as int == 0x7F
  }

  /** The three Unicode private-use areas. */
  predicate InPrivateUseArea(c: char) {
    || 0xE000 <= c as int <= 0xF8FF
    || 0xF_0000 <= c as int <= 0xF_FFFD
    || 0x10_0000 <= c as int <= 0x10_FFFD
  }

  /** `is_printable`: neither an ASCII control nor a private-use code point. Spelled out,
      the printable code points are the five ranges below (surrogates are not characters). */
  function IsPrintable(c: char): (r: bool)
    ensures r <==> !IsAsciiControl(c) && !InPrivateUseArea(c)
    ensures r <==>
      || 0x20 <= c as int <= 0x7E
      || 0x80 <= c as int <= 0xDFFF
      || 0xF900 <= c as int <= 0xE_FFFF
      || 0xF_FFFE <= c as int <= 0xF_FFFF
      || 0x10_FFFE <= c as int
  {
    !InPrivateUseArea(c) && !IsAsciiControl(c)
  }

  /** `text_input_event`: a printable character is appended as a one-character text event;
      anything else leaves the input unchanged. */
  function TextInput(inp: Input, ch: char): (r: Input)
    ensures IsPrintable(ch) ==> r.raw.events == inp.raw.events + [Text([ch])]
    ensures !IsPrintable(ch) ==> r == inp
    ensures r.(raw := r.raw.(events := inp.raw.events)) == inp
  {
    if IsPrintable(ch) then Push(inp, Text([ch])) else inp
  }
}

=== FILE: input_trace.dfy ===
/** Sequences of host input callbacks fed into `Input` (src/input.rs), and the invariants the
    accumulated event list keeps across any such sequence. */
module InputTrace {
  import opened Wrappers
  import opened Egui
  import Ggez
  import opened Input

  /** One host callback the adapter forwards to `Input`, with its arguments. */
  datatype HostEvent =
    | ScaleFactorChanged(factor: real, w: real, h: real)
    | Resized(w: real, h: real)
    | MouseDown(button: Ggez.MouseButton)
    | MouseUp(button: Ggez.MouseButton)
    | Wheel(x: real, y: real)
    | Motion(x: real, y: real)
    | KeyPressed(code: Ggez.KeyCode, mods: Ggez.KeyMods)
    | TextTyped(ch: char)

  /** The callbacks the adapter can take: a nonzero scale factor and the three translated
      mouse buttons. */
  predicate Admissible(e: HostEvent) {
    match e
    case ScaleFactorChanged(f, _, _) => f != 0.0
    case MouseDown(b) => IsTranslatable(b)
    case MouseUp(b) => IsTranslatable(b)
    case _ => true
  }

  /** Routes one callback to its handler. Each handler appends at most one event and never
      removes or reorders the events already accumulated. */
  function Dispatch(inp: Input, e: HostEvent): (r: Input)
    requires inp.scaleFactor != 0.0 && Admissible(e)
    ensures r.scaleFactor != 0.0
    ensures |inp.raw.events| <= |r.raw.events| <= |inp.raw.events| + 1
    ensures r.raw.events[..|inp.raw.events|] == inp.raw.events
  {
    match e
    case ScaleFactorChanged(f, w, h) => SetScaleFactor(inp, f, w, h)
    case Resized(w, h) => ResizeEvent(inp, w, h)
    case MouseDown(b) => MouseButtonDown(inp, b)
    case MouseUp(b) => MouseButtonUp(inp, b)
    case Wheel(x, y) => MouseWheel(inp, x, y)
    case Motion(x, y) => MouseMotion(inp, x, y)
    case KeyPressed(code, mods) => KeyDown(inp, code, mods)
    case TextTyped(ch) => TextInput(inp, ch)
  }

  /** The callbacks in order: the accumulated events only grow at the end, by at most one
      event per callback. */
  function Feed(inp: Input, es: seq<HostEvent>): (r: Input)
    requires inp.scaleFactor != 0.0
    requires forall i :: 0 <= i < |es| ==> Admissible(es[i])
    ensures r.scaleFactor != 0.0
    ensures |inp.raw.events| <= |r.raw.events| <= |inp.raw.events| + |es|
    ensures r.raw.events[..|inp.raw.events|] == inp.raw.events
    decreases |es|
  {
    if es == [] then inp
    else
      var next := Dispatch(inp, es[0]);
      var r := Feed(next, es[1..]);
      assert r.raw.events[..|next.raw.events|][..|inp.raw.events|] == inp.raw.events;
      r
  }

  /** The position of the last `PointerMoved` in `evs`, or `init` when there is none. */
  function LastPointer(evs: seq<Event>, init: Pos2): Pos2 {
    if evs == [] then init
    else if Last(evs).PointerMoved? then Last(evs).pos
    else LastPointer(evs[..|evs| - 1], init)
  }

  /** Every button event sits at the position of the last motion before it. */
  ghost predicate ButtonsAtLastPointer(evs: seq<Event>, init: Pos2) {
    forall i :: 0 <= i < |evs| && evs[i].PointerButtonEvent? ==> evs[i].pos == LastPointer(evs[..i], init)
  }

  /** Every text event is one printable character. */
  ghost predicate TextIsPrintable(evs: seq<Event>) {
    forall i :: 0 <= i < |evs| && evs[i].Text? ==> |evs[i].text| == 1 && IsPrintable(evs[i].text[0])
  }

  /** The invariant the handlers keep, relative to the pointer position `init` the event
      list started from. */
  ghost predicate Consistent(inp: Input, init: Pos2) {
    && inp.pointerPos == LastPointer(inp.raw.events, init)
    && ButtonsAtLastPointer(inp.raw.events, init)
    && TextIsPrintable(inp.raw.events)
  }

  lemma {:induction false} AppendKeepsInvariant(evs: seq<Event>, e: Event, init: Pos2)
    requires ButtonsAtLastPointer(evs, init) && TextIsPrintable(evs)
    requires e.PointerButtonEvent? ==> e.pos == LastPointer(evs, init)
    requires e.Text? ==> |e.text| == 1 && IsPrintable(e.text[0])
    ensures ButtonsAtLastPointer(evs + [e], init) && TextIsPrintable(evs + [e])
    ensures LastPointer(evs + [e], init) == if e.PointerMoved? then e.pos else LastPointer(evs, init)
  {
    var evs' := evs + [e];
    assert evs'[..|evs'| - 1] == evs;
    forall i | 0 <= i < |evs'| && evs'[i].PointerButtonEvent?
      ensures evs'[i].pos == LastPointer(evs'[..i], init)
    {
      if i < |evs| {
        assert evs'[..i] == evs[..i];
      }
    }
  }

  /** Each handler keeps the invariant. */
  lemma DispatchKeepsConsistent(inp: Input, e: HostEvent, init: Pos2)
    requires inp.scaleFactor != 0.0 && Admissible(e)
    requires Consistent(inp, init)
    ensures Consistent(Dispatch(inp, e), init)
  {
    var evs := inp.raw.events;
    match e
    case MouseDown(b) => AppendKeepsInvariant(evs, ButtonEvent(inp, b, true), init);
    case MouseUp(b) => AppendKeepsInvariant(evs, ButtonEvent(inp, b, false), init);
    case Motion(x, y) =>
      AppendKeepsInvariant(evs, PointerMoved(MouseMotion(inp, x, y).pointerPos), init);
    case KeyPressed(code, mods) =>
      var r := KeyDown(inp, code, mods);
      if r.raw.events != evs {
        AppendKeepsInvariant(evs, Last(r.raw.events), init);
        assert r.raw.events == evs + [Last(r.raw.events)];
      }
    case TextTyped(ch) =>
      if IsPrintable(ch) {
        AppendKeepsInvariant(evs, Text([ch]), init);
      }
    case _ =>
  }

  /** Any admissible sequence of callbacks keeps the invariant. */
  lemma {:induction false} FeedKeepsConsistent(inp: Input, es: seq<HostEvent>, init: Pos2)
    requires inp.scaleFactor != 0.0
    requires forall i :: 0 <= i < |es| ==> Admissible(es[i])
    requires Consistent(inp, init)
    ensures Consistent(Feed(inp, es), init)
    decreases |es|
  {
    if es != [] {
      DispatchKeepsConsistent(inp, es[0], init);
      FeedKeepsConsistent(Dispatch(inp, es[0]), es[1..], init);
    }
  }

  /** From a fresh `Input`, after any admissible callbacks, every button event carries the
      position of the last pointer motion before it (the origin if there was none), the
      stored pointer is the last motion's position, and all text is printable. */
  lemma ButtonsFollowMotion(es: seq<HostEvent>)
    requires forall i :: 0 <= i < |es| ==> Admissible(es[i])
    ensures var r := Feed(Default, es);
      && r.pointerPos == LastPointer(r.raw.events, Origin)
      && ButtonsAtLastPointer(r.raw.events, Origin)
      && TextIsPrintable(r.raw.events)
  {
    FeedKeepsConsistent(Default, es, Origin);
  }

  /** A press and release with no motion in between report the same position. */
  lemma ClickAtOnePosition(inp: Input, b: Ggez.MouseButton)
    requires IsTranslatable(b)
    ensures var r := MouseButtonUp(MouseButtonDown(inp, b), b);
      && r.raw.events == inp.raw.events + [ButtonEvent(inp, b, true), ButtonEvent(inp, b, false)]
      && r.pointerPos == inp.pointerPos
  {
  }

  /** Only the last wheel event of a frame is kept. */
  lemma WheelLastWins(inp: Input, x1: real, y1: real, x2: real, y2: real)
    ensures MouseWheel(MouseWheel(inp, x1, y1), x2, y2) == MouseWheel(inp, x2, y2)
  {
  }

  /** The rectangle `set_scale_factor` computes does not depend on the previous factor,
      pixels-per-point or rectangle. */
  lemma ScaleFactorForgetsPrevious(a: Input, b: Input, f: real, w: real, h: real)
    requires f != 0.0
    requires a.pointerPos == b.pointerPos
    requires a.raw.events == b.raw.events && a.raw.scrollDelta == b.raw.scrollDelta
    ensures SetScaleFactor(a, f, w, h) == SetScaleFactor(b, f, w, h)
  {
  }

  /** Pointer moved to (100,100), left press, pointer moved to (120,100), at scale 2: the
      press is reported at the logical position of the preceding motion. */
  lemma PressThenDragAtScaleTwo(inp: Input)
    requires inp.scaleFactor == 2.0
    ensures MouseMotion(MouseButtonDown(MouseMotion(inp, 100.0, 100.0), Ggez.MouseButton.Left), 120.0, 100.0).raw.events
      == inp.raw.events + [
        PointerMoved(Pos2(50.0, 50.0)),
        PointerButtonEvent(Pos2(50.0, 50.0), Primary, true, NoModifiers),
        PointerMoved(Pos2(60.0, 50.0))]
  {
    var i1 := MouseMotion(inp, 100.0, 100.0);
    assert i1.pointerPos == Pos2(50.0, 50.0);
    var i2 := MouseButtonDown(i1, Ggez.MouseButton.Left);
    var i3 := MouseMotion(i2, 120.0, 100.0);
    assert i3.pointerPos == Pos2(60.0, 50.0);
  }

  /** A resize to 1024x768 at scale 1 gives the logical screen (0,0)-(1024,768). */
  lemma ResizeAtUnitScale(inp: Input)
    requires inp.scaleFactor == 1.0
    ensures ResizeEvent(inp, 1024.0, 768.0).raw.screenRect == Some(Rect(Origin, Pos2(1024.0, 768.0)))
  {
  }
}

=== FILE: painter.dfy ===
/** The painter (src/painter.rs): keeps the host-side texture cache in step with the
    toolkit's texture deltas and turns tessellated meshes into host draw calls. Host images
    and draw calls are values; the draw pass returns the calls it issued, in order. */
module Painter {
  import opened Wrappers
  import opened Egui
  import opened Ggez

  /** Why a pass stopped: a host call failed (`GameError`, returned to the caller through
      `?`) or the adapter panicked. */
  datatype Failure = GameError | Panic(reason: string)

  datatype Outcome = Done | Failed(failure: Failure)

  /** The painter's state: the primitives of the last ended frame, the texture deltas not
      yet applied (front first) and the texture cache. */
  datatype Painter = Painter(
    paintJobs: seq<ClippedPrimitive>,
    texturesDelta: seq<TexturesDelta>,
    textures: map<TextureId, HostImage>)

  /** `Painter::default()`. */
  const Empty := Painter([], [], map[])

  const TexelMismatch := "Mismatch between texture size and texel count"
  const CallbackUnsupported := "Custom rendering callbacks are not implemented yet"

  /*======================= Images =======================*/

  /** `as u16`: keeps the low 16 bits. */
  function AsU16(n: nat): (r: nat)
    ensures r < 0x1_0000
    ensures n < 0x1_0000 ==> r == n
    ensures (n - r) % 0x1_0000 == 0
  {
    n % 0x1_0000
  }

  function Width(data: ImageData): nat {
    match data
    case Color(img) => img.width
    case Font(img) => img.width
  }

  function Height(data: ImageData): nat {
    match data
    case Color(img) => img.height
    case Font(img) => img.height
  }

  /** The number of texels the image carries. */
  function TexelCount(data: ImageData): nat {
    match data
    case Color(img) => |img.pixels|
    case Font(img) => |img.pixels|
  }

  /** The image's texels as sRGBA colours: as stored for a colour image, expanded from
      coverage (gamma 1.0) for the font atlas. */
  function Texels(data: ImageData, env: Env): (px: seq<Color32>)
    ensures |px| == TexelCount(data)
  {
    match data
    case Color(img) => img.pixels
    case Font(img) => seq(|img.pixels|, i requires 0 <= i < |img.pixels| => env.fontTexel(img.pixels[i]))
  }

  /** The texels' bytes, four per texel in RGBA order, as the conversion loop extends its
      buffer. */
  function Rgba8(pixels: seq<Color32>): (bytes: seq<byte>)
    ensures |bytes| == 4 * |pixels|
  {
    if pixels == [] then [] else pixels[0].ToArray() + Rgba8(pixels[1..])
  }

  /** Texel `i` occupies bytes `4i` to `4i+3`. */
  lemma {:induction false} Rgba8Layout(pixels: seq<Color32>)
    ensures forall i :: 0 <= i < |pixels| ==> Rgba8(pixels)[4 * i .. 4 * i + 4] == pixels[i].ToArray()
  {
    if pixels != [] {
      Rgba8Layout(pixels[1..]);
      var head, rest := pixels[0].ToArray(), Rgba8(pixels[1..]);
      var bytes := Rgba8(pixels);
      assert bytes == head + rest;
      forall i | 0 <= i < |pixels|
        ensures bytes[4 * i .. 4 * i + 4] == pixels[i].ToArray()
      {
        if i > 0 {
          assert (head + rest)[4 * i .. 4 * i + 4] == rest[4 * (i - 1) .. 4 * (i - 1) + 4];
          assert pixels[1..][i - 1] == pixels[i];
        }
      }
    }
  }

  /** `into_image` for both encodings: a texel count that disagrees with the declared size
      panics; otherwise the texels are expanded to RGBA bytes and handed to the host with
      16-bit dimensions, which may fail. */
  function IntoImage(data: ImageData, env: Env): (r: Result<HostImage, Failure>)
    ensures Width(data) * Height(data) != TexelCount(data) <==> r == Err(Panic(TexelMismatch))
    ensures r.Err? ==> r.error == GameError || r.error == Panic(TexelMismatch)
    ensures r.Ok? ==> env.imageOk(r.value)
    ensures r.Ok? ==> r.value.width == AsU16(Width(data)) && r.value.height == AsU16(Height(data))
    ensures r.Ok? ==> |r.value.rgba| == 4 * TexelCount(data)
    ensures r.Ok? ==> forall i :: 0 <= i < TexelCount(data) ==>
      r.value.rgba[4 * i .. 4 * i + 4] == Texels(data, env)[i].ToArray()
    ensures Reliable(env) && Width(data) * Height(data) == TexelCount(data) ==> r.Ok?
  {
    if Width(data) * Height(data) != TexelCount(data) then
      Err(Panic(TexelMismatch))
    else
      var px := Texels(data, env);
      Rgba8Layout(px);
      var img := HostImage(AsU16(Width(data)), AsU16(Height(data)), Rgba8(px));
      if env.imageOk(img) then Ok(img) else Err(GameError)
  }

  /*======================= Texture cache =======================*/

  /** The cache after a texture update, and whether the update completed. */
  datatype CacheUpdate = CacheUpdate(cache: map<TextureId, HostImage>, outcome: Outcome)

  /** The ids a delta sets. */
  function SetIds(sets: seq<(TextureId, ImageDelta)>): set<TextureId> {
    set i | 0 <= i < |sets| :: sets[i].0
  }

  /** The ids a delta frees. */
  function FreeIds(free: seq<TextureId>): set<TextureId> {
    set i | 0 <= i < |free| :: free[i]
  }

  lemma SetIdsCons(sets: seq<(TextureId, ImageDelta)>)
    requires sets != []
    ensures SetIds(sets) == {sets[0].0} + SetIds(sets[1..])
  {
    forall id | id in SetIds(sets) ensures id in {sets[0].0} + SetIds(sets[1..]) {
      var i :| 0 <= i < |sets| && sets[i].0 == id;
      if i > 0 { assert sets[1..][i - 1] == sets[i]; }
    }
    forall id | id in SetIds(sets[1..]) ensures id in SetIds(sets) {
      var i :| 0 <= i < |sets[1..]| && sets[1..][i].0 == id;
      assert sets[i + 1].0 == id;
    }
  }

  /** The image the last entry for `id` carries: later entries for the same id win. */
  function LastImage(sets: seq<(TextureId, ImageDelta)>, id: TextureId): ImageData
    requires id in SetIds(sets)
  {
    SetIdsCons(sets);
    if id in SetIds(sets[1..]) then LastImage(sets[1..], id) else sets[0].1.image
  }

  /** Every entry of the delta converts into a host image. */
  ghost predicate AllConvert(sets: seq<(TextureId, ImageDelta)>, env: Env) {
    forall i :: 0 <= i < |sets| ==> IntoImage(sets[i].1.image, env).Ok?
  }

  lemma AllConvertCons(sets: seq<(TextureId, ImageDelta)>, env: Env)
    requires sets != []
    ensures AllConvert(sets, env) <==> IntoImage(sets[0].1.image, env).Ok? && AllConvert(sets[1..], env)
  {
    if IntoImage(sets[0].1.image, env).Ok? && AllConvert(sets[1..], env) {
      forall i | 1 <= i < |sets| ensures IntoImage(sets[i].1.image, env).Ok? {
        assert sets[1..][i - 1] == sets[i];
      }
    }
  }

  /** A conversion failure in the tail is a conversion failure of the whole delta. */
  lemma FailureInTail(sets: seq<(TextureId, ImageDelta)>, env: Env, e: Failure)
    requires sets != []
    requires exists j :: 0 <= j < |sets[1..]| && IntoImage(sets[1..][j].1.image, env) == Err(e)
    ensures exists i :: 0 <= i < |sets| && IntoImage(sets[i].1.image, env) == Err(e)
  {
    var j :| 0 <= j < |sets[1..]| && IntoImage(sets[1..][j].1.image, env) == Err(e);
    assert sets[1..][j] == sets[j + 1];
  }

  /** True iff `id` is bound to the same image, or absent, in both caches. */
  ghost predicate SameEntry(m: map<TextureId, HostImage>, m': map<TextureId, HostImage>, id: TextureId) {
    (id !in m && id !in m') || (id in m && id in m' && m[id] == m'[id])
  }

  /** The `set` loop of `update_textures`: converts and inserts the entries in order,
      stopping at the first conversion that fails. */
  function SetTextures(cache: map<TextureId, HostImage>, sets: seq<(TextureId, ImageDelta)>, env: Env): (r: CacheUpdate)
    ensures r.outcome.Done? <==> AllConvert(sets, env)
    ensures r.outcome.Failed? ==>
      exists i :: 0 <= i < |sets| && IntoImage(sets[i].1.image, env) == Err(r.outcome.failure)
    ensures r.outcome.Done? ==> forall id :: id in SetIds(sets) ==>
      id in r.cache && IntoImage(LastImage(sets, id), env) == Ok(r.cache[id])
    ensures forall id :: id !in SetIds(sets) ==> SameEntry(cache, r.cache, id)
    decreases |sets|
  {
    if sets == [] then CacheUpdate(cache, Done)
    else
      SetIdsCons(sets);
      AllConvertCons(sets, env);
      match IntoImage(sets[0].1.image, env)
      case Err(e) => CacheUpdate(cache, Failed(e))
      case Ok(img) =>
        var r := SetTextures(cache[sets[0].0 := img], sets[1..], env);
        if r.outcome.Failed? then
          FailureInTail(sets, env, r.outcome.failure);
          r
        else
          r
  }

  /** The `free` loop of `update_textures`: removes each listed id; an id that is not
      cached is skipped. */
  function FreeTextures(cache: map<TextureId, HostImage>, free: seq<TextureId>): (r: map<TextureId, HostImage>)
    ensures r.Keys == cache.Keys - FreeIds(free)
    ensures forall id :: id in r ==> r[id] == cache[id]
    decreases |free|
  {
    if free == [] then cache
    else
      var r := FreeTextures(cache - {free[0]}, free[1..]);
      assert FreeIds(free) == {free[0]} + FreeIds(free[1..]) by {
        forall id | id in FreeIds(free) ensures id in {free[0]} + FreeIds(free[1..]) {
          var i :| 0 <= i < |free| && free[i] == id;
          if i > 0 { assert free[1..][i - 1] == free[i]; }
        }
      }
      r
  }

  /** `update_textures`: all `set` entries are converted and inserted first, then every
      `free` id is removed. A failed conversion returns at once, before any id is freed. */
  function UpdateTextures(cache: map<TextureId, HostImage>, delta: TexturesDelta, env: Env): (r: CacheUpdate)
    ensures r.outcome.Done? <==> AllConvert(delta.sets, env)
    ensures r.outcome.Done? ==> forall id :: id in SetIds(delta.sets) && id !in FreeIds(delta.free) ==>
      id in r.cache && IntoImage(LastImage(delta.sets, id), env) == Ok(r.cache[id])
    ensures r.outcome.Done? ==> forall id :: id in FreeIds(delta.free) ==> id !in r.cache
    ensures forall id :: id !in SetIds(delta.sets) && id !in FreeIds(delta.free) ==> SameEntry(cache, r.cache, id)
    ensures r.outcome.Failed? ==> forall id :: id !in SetIds(delta.sets) ==> SameEntry(cache, r.cache, id)
  {
    var s := SetTextures(cache, delta.sets, env);
    if s.outcome.Failed? then s
    else CacheUpdate(FreeTextures(s.cache, delta.free), Done)
  }

  /** Freeing ids that are not cached leaves the cache as it was. */
  lemma FreeAbsentIsNoOp(cache: map<TextureId, HostImage>, free: seq<TextureId>, env: Env)
    requires forall i :: 0 <= i < |free| ==> free[i] !in cache
    ensures UpdateTextures(cache, TexturesDelta([], free), env) == CacheUpdate(cache, Done)
  {
    var r := UpdateTextures(cache, TexturesDelta([], free), env).cache;
    assert r.Keys == cache.Keys;
  }

  /** An id both set and freed by the same delta ends up absent, whatever was cached before:
      frees run after sets. */
  lemma SetThenFreeInOneDelta(cache: map<TextureId, HostImage>, id: TextureId, d: ImageDelta, env: Env)
    requires IntoImage(d.image, env).Ok?
    ensures var r := UpdateTextures(cache, TexturesDelta([(id, d)], [id]), env);
      r.outcome.Done? && id !in r.cache
  {
    assert id in FreeIds([id]) by { assert [id][0] == id; }
  }

  /** A partial update (one with a placement) is not patched into the existing texture: the
      cache entry becomes the sub-image alone. */
  lemma PartialUpdateReplacesWholeTexture(cache: map<TextureId, HostImage>, id: TextureId, d: ImageDelta, env: Env)
    requires d.pos.Some? && IntoImage(d.image, env).Ok?
    ensures var r := UpdateTextures(cache, TexturesDelta([(id, d)], []), env);
      && r.outcome.Done? && id in r.cache
      && r.cache[id].width == AsU16(Width(d.image)) && r.cache[id].height == AsU16(Height(d.image))
  {
    var sets := [(id, d)];
    assert id in SetIds(sets) by { assert sets[0].0 == id; }
    assert FreeIds([]) == {};
    SetIdsCons(sets);
    assert SetIds(sets[1..]) == {};
    assert LastImage(sets, id) == d.image;
  }

  /*======================= Meshes =======================*/

  /** The host vertex for a toolkit vertex: position and texture coordinate carried over,
      colour converted to linear RGBA. */
  function ToHostVertex(v: Vertex): (r: HostVertex)
    ensures r.pos == v.pos && r.uv == v.uv && r.color.source == v.color
  {
    HostVertex(v.pos, v.uv, FromColor32(v.color))
  }

  /** The host mesh for a toolkit mesh: one host vertex per vertex in the same order, the
      index list unchanged, and the cached texture for its id, or none if it is not cached. */
  function ToHostMesh(m: Mesh, textures: map<TextureId, HostImage>): (r: HostMesh)
    ensures |r.vertices| == |m.vertices| && r.indices == m.indices
    ensures forall i :: 0 <= i < |m.vertices| ==> r.vertices[i] == ToHostVertex(m.vertices[i])
    ensures r.texture.Some? <==> m.textureId in textures
    ensures r.texture.Some? ==> r.texture.value == textures[m.textureId]
  {
    var vs := seq(|m.vertices|, i requires 0 <= i < |m.vertices| => ToHostVertex(m.vertices[i]));
    HostMesh(vs, m.indices, if m.textureId in textures then Some(textures[m.textureId]) else None)
  }

  /** A mesh with fewer than three vertices is skipped. */
  predicate Drawable(m: Mesh) {
    |m.vertices| >= 3
  }

  /** The drawable meshes among `jobs`, in order. */
  function Kept(jobs: seq<ClippedPrimitive>): (ms: seq<Mesh>)
    ensures |ms| <= |jobs|
    ensures forall k :: 0 <= k < |ms| ==> Drawable(ms[k])
    decreases |jobs|
  {
    if jobs == [] then []
    else if jobs[0].primitive.MeshPrimitive? && Drawable(jobs[0].primitive.mesh) then
      [jobs[0].primitive.mesh] + Kept(jobs[1..])
    else Kept(jobs[1..])
  }

  /** A single job keeps its mesh exactly when it is a mesh of at least three vertices. */
  lemma KeptSingle(c: ClippedPrimitive)
    ensures Kept([c]) == if c.primitive.MeshPrimitive? && Drawable(c.primitive.mesh) then [c.primitive.mesh] else []
  {
    assert [c][1..] == [];
  }

  /** Filtering distributes over concatenation: every drawable mesh of either list is kept,
      in paint-job order. */
  lemma {:induction false} KeptAppend(a: seq<ClippedPrimitive>, b: seq<ClippedPrimitive>)
    ensures Kept(a + b) == Kept(a) + Kept(b)
    decreases |a|
  {
    if a == [] {
      assert a + b == b;
    } else {
      assert (a + b)[0] == a[0];
      assert (a + b)[1..] == a[1..] + b;
      KeptAppend(a[1..], b);
    }
  }

  /** The draw calls a complete pass issues: one per drawable mesh, in paint order. */
  function Expected(jobs: seq<ClippedPrimitive>, textures: map<TextureId, HostImage>, scale: real): (calls: seq<DrawCall>)
    ensures |calls| == |Kept(jobs)|
  {
    var ms := Kept(jobs);
    seq(|ms|, k requires 0 <= k < |ms| => DrawCall(ToHostMesh(ms[k], textures), scale))
  }

  /** No primitive is a paint callback. */
  predicate NoCallbacks(jobs: seq<ClippedPrimitive>) {
    forall i :: 0 <= i < |jobs| ==> jobs[i].primitive.MeshPrimitive?
  }

  /** The calls issued by a pass and how it ended. */
  datatype Pass = Pass(log: seq<DrawCall>, outcome: Outcome)

  lemma ExpectedCons(jobs: seq<ClippedPrimitive>, textures: map<TextureId, HostImage>, scale: real)
    requires jobs != []
    ensures jobs[0].primitive.MeshPrimitive? && Drawable(jobs[0].primitive.mesh) ==>
      Expected(jobs, textures, scale)
      == [DrawCall(ToHostMesh(jobs[0].primitive.mesh, textures), scale)] + Expected(jobs[1..], textures, scale)
    ensures !(jobs[0].primitive.MeshPrimitive? && Drawable(jobs[0].primitive.mesh)) ==>
      Expected(jobs, textures, scale) == Expected(jobs[1..], textures, scale)
  {
  }

  /** The mesh loop of `draw`: skips meshes with fewer than three vertices, builds and draws
      every other mesh in order, stops at the first host failure, and panics on a paint
      callback. The calls issued are always the start of the complete pass. */
  function DrawJobs(jobs: seq<ClippedPrimitive>, textures: map<TextureId, HostImage>, env: Env, scale: real): (r: Pass)
    ensures |r.log| <= |Expected(jobs, textures, scale)|
    ensures r.log == Expected(jobs, textures, scale)[..|r.log|]
    ensures r.outcome.Done? ==> r.log == Expected(jobs, textures, scale) && NoCallbacks(jobs)
    ensures r.outcome.Failed? ==> r.outcome.failure == GameError || r.outcome.failure == Panic(CallbackUnsupported)
    ensures Reliable(env) ==> (r.outcome.Done? <==> NoCallbacks(jobs))
    ensures Reliable(env) && !NoCallbacks(jobs) ==> r.outcome == Failed(Panic(CallbackUnsupported))
    decreases |jobs|
  {
    if jobs == [] then Pass([], Done)
    else
      ExpectedCons(jobs, textures, scale);
      match jobs[0].primitive
      case Callback(_) => Pass([], Failed(Panic(CallbackUnsupported)))
      case MeshPrimitive(m) =>
        if !Drawable(m) then
          var r := DrawJobs(jobs[1..], textures, env, scale);
          NoCallbacksCons(jobs);
          r
        else
          var hm := ToHostMesh(m, textures);
          var call := DrawCall(hm, scale);
          if !env.meshOk(hm) || !env.drawOk(call) then Pass([], Failed(GameError))
          else
            var r := DrawJobs(jobs[1..], textures, env, scale);
            NoCallbacksCons(jobs);
            Pass([call] + r.log, r.outcome)
  }

  lemma NoCallbacksCons(jobs: seq<ClippedPrimitive>)
    requires jobs != []
    ensures NoCallbacks(jobs) <==> jobs[0].primitive.MeshPrimitive? && NoCallbacks(jobs[1..])
  {
    if jobs[0].primitive.MeshPrimitive? && NoCallbacks(jobs[1..]) {
      forall i | 0 <= i < |jobs| ensures jobs[i].primitive.MeshPrimitive? {
        if i > 0 { assert jobs[1..][i - 1] == jobs[i]; }
      }
    }
  }

  /** Every call of a pass draws a mesh of at least three vertices at the given scale, and
      call `k` draws the `k`-th drawable mesh. */
  lemma DrawnMeshesAreDrawable(jobs: seq<ClippedPrimitive>, textures: map<TextureId, HostImage>, env: Env, scale: real)
    ensures var r := DrawJobs(jobs, textures, env, scale);
      forall k :: 0 <= k < |r.log| ==>
        && |r.log[k].mesh.vertices| >= 3
        && r.log[k].scale == scale
        && r.log[k].mesh == ToHostMesh(Kept(jobs)[k], textures)
  {
  }

  /*======================= Draw =======================*/

  /** The painter after a draw, the calls issued and how the draw ended. */
  datatype DrawResult = DrawResult(painter: Painter, log: seq<DrawCall>, outcome: Outcome)

  /** Every entry of the delta has a texel count that matches its size. */
  predicate WellSized(delta: TexturesDelta) {
    forall i :: 0 <= i < |delta.sets| ==>
      Width(delta.sets[i].1.image) * Height(delta.sets[i].1.image) == TexelCount(delta.sets[i].1.image)
  }

  /** `Painter::draw`: takes at most one pending delta from the front and applies it, then
      draws the paint jobs against the updated cache. A failed update returns before any
      mesh is drawn. The paint jobs stay in place for the next draw. */
  function Draw(p: Painter, env: Env, scale: real): (r: DrawResult)
    ensures r.painter.paintJobs == p.paintJobs
    ensures |p.texturesDelta| == 0 ==> r.painter.texturesDelta == [] && r.painter.textures == p.textures
    ensures |p.texturesDelta| > 0 ==>
      && r.painter.texturesDelta == p.texturesDelta[1..]
      && r.painter.textures == UpdateTextures(p.textures, p.texturesDelta[0], env).cache
    ensures |r.log| <= |Expected(p.paintJobs, r.painter.textures, scale)|
    ensures r.log == Expected(p.paintJobs, r.painter.textures, scale)[..|r.log|]
    ensures r.outcome.Done? ==> r.log == Expected(p.paintJobs, r.painter.textures, scale)
    ensures |p.texturesDelta| > 0 && !AllConvert(p.texturesDelta[0].sets, env) ==> r.log == [] && r.outcome.Failed?
    ensures Reliable(env) && NoCallbacks(p.paintJobs) && (|p.texturesDelta| > 0 ==> WellSized(p.texturesDelta[0]))
      ==> r.outcome.Done?
  {
    if |p.texturesDelta| == 0 then
      var pass := DrawJobs(p.paintJobs, p.textures, env, scale);
      DrawResult(p, pass.log, pass.outcome)
    else
      var u := UpdateTextures(p.textures, p.texturesDelta[0], env);
      var p' := p.(texturesDelta := p.texturesDelta[1..], textures := u.cache);
      if u.outcome.Failed? then DrawResult(p', [], u.outcome)
      else
        var pass := DrawJobs(p'.paintJobs, p'.textures, env, scale);
        DrawResult(p', pass.log, pass.outcome)
  }
}

=== FILE: wrappers.dfy ===
/** Wrappers and sequence helpers shared by the adapter model. */
module Wrappers {

  /** Rust's `Option`: a value that may be missing. */
  datatype Option<+T> = None | Some(value: T)

  /** Rust's `Result`: a value or an error. */
  datatype Result<+T, +E> = Ok(value: T) | Err(error: E)

  /** The last element of a non-empty sequence. */
  function Last<T>(s: seq<T>): T
    requires |s| > 0
  {
    s[|s| - 1]
  }
}
